=== FILE: README.md ===
# CppTraining vectors in Dafny

This project models the two dynamic arrays of the CppTraining repository and proves properties about them.

- **Lesson 1** is `CppTraining::Vector<T, Allocator>`. It is allocator-aware. It has bounds-checked element access, a pluggable growth policy and two random-access iterator classes, `Iterator` and `ConstIterator`.
- **Lesson 0** is `CppTraining::Vector<T>`. It holds a realloc/free block, a size and a capacity.
- **`DefaultGrowthPolicy`** is the functor lesson 1 uses by default. It asks for as many extra slots as are already allocated.

Files:

- `outcomes.dfy` (module `Outcomes`): the exceptions the code throws (`out_of_range`, the three `runtime_error` messages about iterators as two kinds, and `bad_function_call`), as the `Err` side of a `Result`.
- `growth_policy.dfy` (module `GrowthPolicy`): the default policy, the growth step of `emplace_back`, and the capacity sequence it produces.
- `iterators.dfy` (module `Iterators`): `Iterator` and `ConstIterator` as one value type, `Iter`. Its `constness` tag says which of the two classes it is. It holds the container (`None` for a null pointer) and an index. Comparison, movement and difference live here.
- `vector.dfy` (module `AllocatorAwareVector`): the lesson-1 class.
  - Storage is an `array?<T>` whose length is the capacity. Slots `[0, size)` are live.
  - The allocator is an identity, and the allocator type's three `propagate_on_container_*` traits are a constant of each vector.
  - The growth policy is `Option<(nat, nat) -> nat>`. `None` is the empty `std::function`.
  - A ghost set `released` records the blocks a vector has handed back to its allocator. It tells a released block apart from one that is only forgotten.
  - The same module has `swap`, iterator dereference and subscript, and the as-written and corrected halves of the findings.
- `simple_vector.dfy` (module `SimpleVector`): the lesson-0 class. Its block is an array in the same way, but it keeps no record of the blocks it frees.
- `scenarios.dfy` (module `Scenarios`): client programs. They set up the situations the repository's test scenarios describe, plus the concrete inputs behind each finding. Each one states its observable outcome as an `ensures`.

Every operation that changes a vector is a `method` with a `modifies` clause. Its `ensures` gives:

- the new live contents (`Elements()`) in terms of the old ones,
- the new capacity,
- whether the block was kept, replaced by a fresh one, or dropped,
- for the lesson-1 class, which blocks it released, and what happens to the allocator and the growth policy.

A method that modifies only the block's slots, such as `Set`, keeps the block, `released`, the allocator and the policy by its frame.

Queries are functions with `reads` clauses. Every throwing path is an `Err` result.

## Model

| member | source | states |
|---|---|---|
| GrowthPolicy.Default | src/common/include/default_growth_policy.h:9 | DefaultGrowthPolicy asks for exactly as many extra slots as the current capacity, whatever the size |
| GrowthPolicy.GrownCapacity | src/lesson_1/include/vector.inl:721-725 | emplace_back's new capacity when full: strictly more than the old capacity, and at least old capacity plus what the policy asked for |
| GrowthPolicy.DefaultIgnoresSize | src/common/include/default_growth_policy.h:9 | the default policy's answer does not depend on the size argument |
| GrowthPolicy.DefaultGrowthDoubles | src/common/include/default_growth_policy.h:7-10 | with the max(1, ·) floor the default policy takes capacity 0 to 1 and doubles any other capacity |
| GrowthPolicy.DefaultGrowthSequence | src/lesson_1/include/vector.inl:717-729 | after k growth steps from an empty vector the capacity is 0 for k = 0 and 2^(k-1) otherwise |
| GrowthPolicy.AppendsStayAmortized | src/lesson_1/include/vector.inl:717-729 | after n >= 1 appends to a default vector, n <= capacity < 2n and the capacity is a power of two |
| Iterators.Iter.NotEqual | src/lesson_1/include/vector.inl:39-43 | != holds exactly when the containers or the indices differ; it never fails |
| Iterators.Iter.Equal | src/lesson_1/include/vector.inl:33-43 | == holds exactly when container and index both agree (it is the negation of !=) |
| Iterators.Iter.Less | src/lesson_1/include/vector.inl:45-59 | fails "unassociated" on a null left operand, then "unrelated" on different containers, else compares indices |
| Iterators.Iter.Greater | src/lesson_1/include/vector.inl:61-75 | same failure conditions in the same order as <, else index > rhs index |
| Iterators.Iter.Increment | src/lesson_1/include/vector.inl:77-88 | fails exactly when unassociated; otherwise same container and constness, index + 1 |
| Iterators.Iter.PostIncrement | src/lesson_1/include/vector.inl:90-96 | returns the unchanged copy together with what prefix ++ yields; fails exactly when unassociated |
| Iterators.Iter.Decrement | src/lesson_1/include/vector.inl:98-112 | fails exactly when unassociated; otherwise index - 1, staying at 0 |
| Iterators.Iter.PostDecrement | src/lesson_1/include/vector.inl:114-120 | returns the unchanged copy together with what prefix -- yields |
| Iterators.Iter.Difference | src/lesson_1/include/vector.inl:122-137 | fails "unrelated" when containers differ, otherwise "unassociated" when null; else rhs.index + result == index |
| Iterators.Iter.AddAssign | src/lesson_1/include/vector.inl:139-159 | fails exactly when unassociated; the new index is index + offset clamped at 0 |
| Iterators.Iter.SubAssign | src/lesson_1/include/vector.inl:161-166 | the new index is index - offset clamped at 0, same container and constness; fails UnassociatedIterator exactly when unassociated |
| Iterators.Iter.Plus | src/lesson_1/include/vector.h:75-85 | position + offset is the iterator += would produce, failing identically |
| Iterators.Iter.Minus | src/lesson_1/include/vector.h:92-102 | position - offset is the iterator -= would produce, failing identically |
| Iterators.Iter.ToConst | src/lesson_1/include/vector.inl:180-184 | the ConstIterator converted from an Iterator is read-only and == the same position |
| Iterators.Unassociated | src/lesson_1/include/vector.h:105-108 | a default-constructed iterator has no container and index 0 |
| Iterators.OffsetPlus | src/lesson_1/include/vector.h:87-90 | offset + position equals position + offset |
| Iterators.UnassociatedFails | src/lesson_1/tests/vector_test.cpp:585-642 | on a default-constructed iterator ++, --, both postfix forms, +=, -=, +, -, <, > and binary - all fail |
| Iterators.IncrementThenDecrement | src/lesson_1/include/vector.inl:77-112 | ++ then -- returns to the starting iterator |
| Iterators.DecrementThenIncrement | src/lesson_1/include/vector.inl:77-112 | -- then ++ returns to the start exactly when the index was not 0 |
| Iterators.DifferenceRoundTrip | src/lesson_1/include/vector.inl:122-159 | for related iterators, b + (a - b) == a |
| Iterators.Trichotomy | src/lesson_1/include/vector.inl:33-75 | for iterators of one container exactly one of <, >, == holds, and a < b equals b > a |
| Iterators.AdvanceIsAddAssign | src/lesson_1/include/vector.inl:77-159 | n prefix increments land where += n lands |
| Iterators.RetreatIsSubAssign | src/lesson_1/include/vector.inl:98-166 | n prefix decrements land where -= n lands, both clamping at 0 |
| AllocatorAwareVector.Vector.constructor | src/lesson_1/include/vector.inl:381-388 | an empty vector with exactly the requested capacity, the given allocator and growth policy |
| AllocatorAwareVector.Vector.Default | src/lesson_1/include/vector.h:188-190 | default arguments: no storage, the default allocator, DefaultGrowthPolicy |
| AllocatorAwareVector.Vector.FromList | src/lesson_1/include/vector.inl:390-400 | the live elements are the listed values in order and the capacity is exactly their count |
| AllocatorAwareVector.Vector.Copy | src/lesson_1/include/vector.inl:402-433 | as written: same elements, capacity and allocator in a fresh block, and an empty growth policy |
| AllocatorAwareVector.Vector.CopyWithPolicy | src/lesson_1/include/vector.inl:402-433 | corrected copy constructor: as Copy, but the growth policy is copied too |
| AllocatorAwareVector.Vector.Move | src/lesson_1/include/vector.inl:435-445 | as written: takes block, elements, capacity and allocator; source left with size 0, capacity 0 and no block; empty growth policy |
| AllocatorAwareVector.Vector.MoveWithPolicy | src/lesson_1/include/vector.inl:435-445 | corrected move constructor: takes block, elements, capacity, allocator and growth policy; source left with size 0, capacity 0 and no block, its allocator, policy and released blocks kept |
| AllocatorAwareVector.Vector.Dispose | src/lesson_1/include/vector.inl:528-540 | the destructor leaves nothing live and no block, and releases the block it held; allocator and policy stay |
| AllocatorAwareVector.Vector.Size | src/lesson_1/include/vector.inl:565-569 | size() is the number of live elements |
| AllocatorAwareVector.Vector.Capacity | src/lesson_1/include/vector.inl:571-575 | capacity() is at least the size, and 0 exactly when no block is held |
| AllocatorAwareVector.Vector.Empty | src/lesson_1/include/vector.inl:577-581 | empty() holds exactly when there are no live elements |
| AllocatorAwareVector.Vector.Get | src/lesson_1/include/vector.inl:542-563 | operator[] and at(): the element at index when index < size, out_of_range otherwise (both directions) |
| AllocatorAwareVector.Vector.Set | src/lesson_1/include/vector.inl:542-551 | writing through the returned reference replaces exactly that element, and fails out_of_range exactly when index >= size |
| AllocatorAwareVector.Vector.Front | src/lesson_1/include/vector.inl:583-593 | the first element when non-empty, out_of_range exactly when empty |
| AllocatorAwareVector.Vector.Back | src/lesson_1/include/vector.inl:595-605 | the last element when non-empty; on an empty vector size_-1 wraps and the check rejects it |
| AllocatorAwareVector.Vector.Reserve | src/lesson_1/include/vector.inl:620-642 | elements unchanged; capacity becomes max(n, old capacity), in a fresh block only when it grew, the old block then released |
| AllocatorAwareVector.Vector.Resize | src/lesson_1/include/vector.inl:644-676 | size n; a shrink keeps the prefix, a grow appends value-initialized elements; resize(0) from non-empty drops the block; otherwise the block is kept unless n exceeds the capacity, when it is fresh; capacity >= size; a replaced or dropped block is released |
| AllocatorAwareVector.Vector.Clear | src/lesson_1/include/vector.inl:678-687 | no live elements; block and capacity kept |
| AllocatorAwareVector.Vector.ShrinkToFit | src/lesson_1/include/vector.inl:689-715 | elements unchanged, capacity == size, no block when empty, the block untouched when already exact; a replaced or dropped block is released |
| AllocatorAwareVector.Vector.EmplaceBack | src/lesson_1/include/vector.inl:717-743 | appends the value and returns an iterator at it; when full grows to the GrownCapacity; fails bad_function_call exactly when full with an empty policy, changing nothing |
| AllocatorAwareVector.Vector.PopBack | src/lesson_1/include/vector.inl:745-752 | drops the last element, nothing on an empty vector; capacity and block kept |
| AllocatorAwareVector.Vector.Begin | src/lesson_1/include/vector.inl:754-758 | a mutable iterator of this vector at index 0 |
| AllocatorAwareVector.Vector.End | src/lesson_1/include/vector.inl:772-776 | a mutable iterator of this vector at index size |
| AllocatorAwareVector.Vector.CBegin | src/lesson_1/include/vector.inl:760-770 | begin() const and cbegin() are begin() converted to a ConstIterator |
| AllocatorAwareVector.Vector.CEnd | src/lesson_1/include/vector.inl:778-788 | end() const and cend() are end() converted to a ConstIterator |
| AllocatorAwareVector.Vector.CopyAssign | src/lesson_1/include/vector.inl:447-474 | contents become other's, other unchanged; the allocator follows propagate_on_container_copy_assignment; capacity is max(kept capacity, other's capacity); the block is kept when no allocator switch released it and other's capacity fits, fresh when the capacity grew, never shared with other; the old block is released exactly when it was replaced; self-assignment changes nothing |
| AllocatorAwareVector.Vector.CapacityKeptByCopyAssign | src/lesson_1/include/vector.inl:452-458 | the capacity is dropped to 0 exactly when the allocator propagates and differs, else kept |
| AllocatorAwareVector.Vector.MoveAssign | src/lesson_1/include/vector.inl:476-526 | as written: contents become other's; block stolen when propagating or allocators equal, else a fresh block of other.size slots; source left empty with no block; exactly the target's old block released; in the element-wise branch the source's old block is held by neither vector and released by neither; self-assignment changes nothing, released included |
| AllocatorAwareVector.Vector.MoveAssignReleasing | src/lesson_1/include/vector.inl:492-522 | corrected: every clause of MoveAssign about contents, capacity, block, allocators, growth policies and the target's released blocks, and each block the two vectors held before is afterwards held by the target or released; the element-wise branch releases the source's block through the source |
| AllocatorAwareVector.Swap | src/lesson_1/include/vector.inl:365-379 | contents, capacities and blocks exchanged; allocators exchanged exactly when propagate_on_container_swap |
| AllocatorAwareVector.Deref | src/lesson_1/include/vector.inl:11-31 | * and -> fail unassociated on a null container, else are exactly the container's at(index): the element below the size, out_of_range at or past it |
| AllocatorAwareVector.Subscript | src/lesson_1/include/vector.inl:168-178 | as written it[n] is the container's operator[](n), independent of the iterator's index |
| AllocatorAwareVector.SubscriptFromPosition | src/lesson_1/include/vector.inl:168-178 | corrected it[n]: the element at the iterator's index + n |
| AllocatorAwareVector.BeginDerefIsFront | src/lesson_1/include/vector.inl:754-770 | *begin() and *cbegin() read front() |
| AllocatorAwareVector.EndMinusBeginIsSize | src/lesson_1/include/vector.inl:122-137 | end() - begin() is the size, for both iterator kinds, and *end() is out_of_range |
| AllocatorAwareVector.AdvancedBeginReads | src/lesson_1/include/vector.h:75-85 | *(begin() + k) reads exactly what at(k) reads |
| AllocatorAwareVector.DistinctVectorsUnrelated | src/lesson_1/include/vector.inl:45-137 | iterators of two different vectors cannot be subtracted or ordered |
| AllocatorAwareVector.SubscriptIgnoresPosition | src/lesson_1/include/vector.inl:168-178 | as written it[n] equals begin()[n] for every iterator of the vector |
| AllocatorAwareVector.CopyRollbackAsWritten | src/lesson_1/include/vector.inl:421-426 | the catch loop destroys slot `failed` every time, so none of the slots the copy loop constructed is destroyed |
| AllocatorAwareVector.CopyRollback | src/lesson_1/include/vector.inl:421-426 | corrected: destroys exactly the constructed slots 0..failed-1, each once, in order |
| SimpleVector.Vector.constructor | src/lesson_0/include/vector.inl:13-17 | an empty vector with exactly the requested capacity |
| SimpleVector.Vector.Copy | src/lesson_0/include/vector.inl:19-32 | same elements and capacity, in a fresh block |
| SimpleVector.Vector.Move | src/lesson_0/include/vector.inl:34-43 | takes block, elements and capacity; source left with size 0, capacity 0 and no block |
| SimpleVector.Vector.CopyAssign | src/lesson_0/include/vector.inl:45-52 | copy-and-swap: contents and capacity become other's, in a fresh block |
| SimpleVector.Vector.MoveAssign | src/lesson_0/include/vector.inl:69-87 | takes other's contents, capacity and block, source emptied; self-assignment changes nothing |
| SimpleVector.Vector.Dispose | src/lesson_0/include/vector.inl:89-98 | the destructor leaves nothing live and no block |
| SimpleVector.Vector.Size | src/lesson_0/include/vector.inl:100-104 | size() is the number of live elements |
| SimpleVector.Vector.Capacity | src/lesson_0/include/vector.inl:106-110 | capacity() is at least the size, and 0 exactly when no block is held |
| SimpleVector.Vector.Empty | src/lesson_0/include/vector.inl:112-116 | empty() holds exactly when there are no live elements |
| SimpleVector.Vector.Reserve | src/lesson_0/include/vector.inl:118-128 | elements unchanged; capacity becomes max(n, old capacity) |
| SimpleVector.Vector.Resize | src/lesson_0/include/vector.inl:130-165 | as written: the state stays valid exactly unless n == 0 < size, where the block is dropped and size and capacity are stale; a shrink to n > 0 reallocates to a fresh block, a grow keeps the block unless n exceeds the capacity; the closing assert holds exactly in the listed cases |
| SimpleVector.Vector.ResizeCorrected | src/lesson_0/include/vector.inl:130-165 | corrected: always valid, size n, capacity >= size, resize(0) leaves capacity 0 and no block; block kept or fresh as in Resize |
| SimpleVector.Vector.Clear | src/lesson_0/include/vector.inl:167-176 | no live elements; block and capacity kept |
| SimpleVector.Vector.ShrinkToFit | src/lesson_0/include/vector.inl:178-194 | elements unchanged, capacity == size, no block when empty |
| SimpleVector.Swap | src/lesson_0/include/vector.inl:5-11 | contents, capacities and blocks exchanged |
| Scenarios.ListAccess | src/lesson_1/tests/vector_test.cpp:462-471 | Vector{a, b, c}: at(1) is b, front() a, back() c, at(3) out_of_range |
| Scenarios.EmptyAccess | src/lesson_1/tests/vector_test.cpp:255-260 | on an empty vector at(0) is out_of_range, as the test requires, and so are front() and back(), which index it the same way |
| Scenarios.PushThreePopOne | src/lesson_1/tests/vector_test.cpp:144-157 | three push_backs then pop_back: size 2, capacity 4, back() is the second value; shrink_to_fit then brings the capacity to 2 |
| Scenarios.AppendAll | src/lesson_1/tests/vector_test.cpp:185-200 | appending n values keeps them in order, with capacity following the default growth sequence |
| Scenarios.IteratorWalk | src/lesson_1/tests/vector_test.cpp:477-726 | *(begin+1) b, *(end-1) c, end-begin 3, begin-mid -1, begin[2] c, and end -= 4 clamps to begin (lines 711-726) |
| Scenarios.UnassociatedIteratorFails | src/lesson_1/tests/vector_test.cpp:585-642 | *it, ++it and it[0] on a default-constructed iterator fail |
| Scenarios.CopyCannotGrow | src/lesson_1/include/vector.inl:402-433 | push_back on a full copy fails bad_function_call; on the corrected copy it succeeds |
| Scenarios.MoveCannotGrow | src/lesson_1/include/vector.inl:435-445 | push_back on a full moved-to vector fails bad_function_call; with the corrected move it succeeds |
| Scenarios.SubscriptFromMiddle | src/lesson_1/include/vector.inl:168-178 | (begin()+1)[0] reads a as written, b with the random-access meaning |
| Scenarios.CopyOverExisting | src/lesson_1/tests/vector_test.cpp:303-320 | copy-assigning over a non-empty vector gives it exactly the source's elements, source unchanged |
| Scenarios.MoveOverExisting | src/lesson_1/tests/vector_test.cpp:379-396 | move-assigning over a non-empty vector gives it the source's elements, source size 0, capacity 0 |
| Scenarios.MoveLeaksSourceBlock | src/lesson_1/include/vector.inl:492-522 | with unequal non-propagating allocators the target gets the element, and the source's old block is held by neither vector and released by neither; with the corrected assignment the source releases it |
| Scenarios.SimpleResizeToZero | src/lesson_0/include/vector.inl:140-144 | resize(3) then resize(0): no block but size 3 and capacity 3; corrected gives 0 and 0 |
| Scenarios.SimpleReserveThenResize | src/lesson_0/include/vector.inl:153-164 | reserve(10) then resize(5): capacity 10, size 5, so the closing assert fails |
| Scenarios.SimpleCopyAssign | src/lesson_0/include/vector.inl:45-52 | copy-assigning a vector reserved to 10 gives capacity 10 and leaves the source's capacity |

## Left out

- The lesson-0 class keeps no `released` record. Its `free` and `realloc` calls (`Dispose`, `Resize`, `ShrinkToFit`, and the temporary of copy-and-swap `CopyAssign`) appear only as the block becoming null or fresh.
- Memory mechanics: allocation failure, `realloc` moving or failing (lesson 0 asserts it does not), and the allocator's own bookkeeping are not modelled. A block is a Dafny array. In lesson 1, releasing one adds it to the vector's ghost `released` set and drops the reference.
- Element construction, move and destruction are not modelled. Elements are values. `T{}` is the `init` parameter of `Resize`. A moved-from element keeps its value.
- Exceptions thrown by an element's copy constructor are not modelled. The only exception is the copy constructor's cleanup loop, which is a finding and is modelled on its own in `CopyRollbackAsWritten`.
- `size_type` is unbounded. The only 64-bit wrap modelled is `back()` on an empty vector. `capacity_ + max(...)` in `emplace_back` and the index `+=` can overflow, and neither overflow is modelled.
- `difference_type` is an unbounded `int`. `static_cast<size_type>(-offset)` for the most negative offset is not modelled.
- `push_back`'s two overloads are `EmplaceBack`, which they forward to. Variadic in-place construction is reduced to constructing from one value.
- `operator->` is not modelled separately. It performs the same check and access as `operator*`, so it is `Deref`.
- `select_on_container_copy_construction` is the identity. That is what it does for `std::allocator` and for the test allocators.
- `swap` with unequal, non-propagating allocators is not modelled. It is undefined behaviour for standard containers. `Swap` exchanges blocks whatever the allocators.
- Iterator invalidation is not modelled. Iterators name a container and an index, so an iterator stays meaningful across reallocation.
- Const-correctness is not modelled. A `ReadOnly` iterator reads like a mutable one. Assignment through a reference is `Set`.
- `std::sort` over the iterators (a test) is not modelled.
- The classes under `src/common` (`Foo`, `Bar`), the test allocators and the equality and increment helpers are not part of this model.
- AllocatorAwareVector.Vector.MoveAssign: requires that the two vectors do not share a block, the invariant the class maintains, and that both have the same allocator traits. `MoveAssignReleasing` requires the same.
- `released` is kept per vector and `Swap` does not exchange it. It records only what a vector deallocated itself, so the model does not state the global fact that no live block was ever released.
- AllocatorAwareVector.Vector.CopyAssign: requires that the two vectors do not share a block, the invariant the class maintains, and that both have the same allocator traits, which is what the single C++ allocator type guarantees.
- AllocatorAwareVector.Vector.Copy: the element loop copies all of other's elements. The throwing path is modelled only through `CopyRollbackAsWritten`.

## Findings

| source | as written | input that shows it | evidently intended | confidence | as-written member | corrected member |
|---|---|---|---|---|---|---|
| src/lesson_1/include/vector.inl:423-426 | the copy constructor's catch loop destroys `data_ + i` on every iteration | copying the element at index 2 throws: slot 2 (never constructed) is destroyed twice and slots 0 and 1 are never destroyed | destroy `data_ + j`, each constructed slot once | not executed | AllocatorAwareVector.CopyRollbackAsWritten | AllocatorAwareVector.CopyRollback |
| src/lesson_1/include/vector.inl:495-507 | move assignment with a non-propagating, unequal allocator moves the elements out, then nulls `other.data_` | two vectors with allocators that compare unequal and no propagation: the source's block and moved-from elements are never destroyed or deallocated | destroy the source's elements and deallocate its block before forgetting it | not executed | AllocatorAwareVector.Vector.MoveAssign | AllocatorAwareVector.Vector.MoveAssignReleasing |
| src/lesson_1/include/vector.inl:402-445 | copy and move constructors never initialize `growth_policy_` | copy a full vector, then push_back: the empty `std::function` throws bad_function_call | copy or move the growth policy | not executed | AllocatorAwareVector.Vector.Copy | AllocatorAwareVector.Vector.CopyWithPolicy |
| src/lesson_1/include/vector.inl:435-445 | the move constructor leaves `growth_policy_` empty | move a full vector into a new one, then push_back: bad_function_call | move the growth policy | not executed | Scenarios.MoveCannotGrow | AllocatorAwareVector.Vector.MoveWithPolicy |
| src/lesson_1/include/vector.inl:168-178 | `Iterator::operator[](n)` returns the container's element n | (begin()+1)[0] over {a, b, c} reads a | the random-access meaning `*(it + n)`, reading b | not executed | AllocatorAwareVector.SubscriptIgnoresPosition | AllocatorAwareVector.SubscriptFromPosition |
| src/lesson_0/include/vector.inl:140-144 | `resize(0)` frees the block but leaves `size_` and `capacity_` | resize(3) then resize(0): size() 3, capacity() 3, no block; the destructor then destroys three elements of a null block | set size and capacity to 0 | not executed | Scenarios.SimpleResizeToZero | SimpleVector.Vector.ResizeCorrected |
| src/lesson_0/include/vector.inl:153-164 | growing resize reserves n but asserts `capacity_ == size_` | reserve(10) then resize(5): capacity 10, size 5, the assert fails | assert capacity_ >= size_, as lesson 1 does | not executed | Scenarios.SimpleReserveThenResize | SimpleVector.Vector.ResizeCorrected |

=== FILE: growth_policy.dfy ===
/** The default growth policy (src/common/include/default_growth_policy.h) and the growth step
    emplace_back builds from a policy: `capacity + max(1, policy(size, capacity))`. */
module GrowthPolicy {

  /** DefaultGrowthPolicy::operator(): asks for as many extra slots as are already allocated.
      The size argument is unused; the functor has no fields, so it is a plain total function. */
  function Default(size: nat, capacity: nat): (r: nat)
    ensures r == capacity
  {
    capacity
  }

  function Max(a: nat, b: nat): nat
  {
    if a < b then b else a
  }

  /** The capacity emplace_back reserves when it finds the vector full. */
  function GrownCapacity(policy: (nat, nat) -> nat, size: nat, capacity: nat): (r: nat)
    ensures r > capacity
    ensures r >= capacity + policy(size, capacity)
  {
    capacity + Max(1, policy(size, capacity))
  }

  /** The default policy reads only the capacity. */
  lemma DefaultIgnoresSize(size1: nat, size2: nat, capacity: nat)
    ensures Default(size1, capacity) == Default(size2, capacity)
  {
  }

  /** With the `max(1, ...)` floor the default policy turns capacity 0 into 1 and doubles any
      other capacity. */
  lemma DefaultGrowthDoubles(size: nat, capacity: nat)
    ensures GrownCapacity(Default, size, capacity) == if capacity == 0 then 1 else 2 * capacity
  {
  }

  function Pow2(k: nat): (r: nat)
    ensures r >= 1
  {
    if k == 0 then 1 else 2 * Pow2(k - 1)
  }

  /** Capacity after `steps` growth steps of the default policy, starting from an empty vector. */
  function CapacityAfterGrowths(steps: nat): nat
  {
    if steps == 0 then 0 else GrownCapacity(Default, 0, CapacityAfterGrowths(steps - 1))
  }

  /** The default growth sequence is 0, 1, 2, 4, 8, ... */
  lemma {:induction false} DefaultGrowthSequence(steps: nat)
    ensures CapacityAfterGrowths(steps) == if steps == 0 then 0 else Pow2(steps - 1)
  {
    if steps > 0 {
      DefaultGrowthSequence(steps - 1);
      DefaultGrowthDoubles(0, CapacityAfterGrowths(steps - 1));
    }
  }

  /** Capacity of a vector that started empty with the default policy and then received `appends`
      calls of emplace_back: each call grows only when size == capacity. */
  function CapacityAfterAppends(appends: nat): nat
  {
    if appends == 0 then 0
    else
      var capacity := CapacityAfterAppends(appends - 1);
      if appends - 1 == capacity then GrownCapacity(Default, appends - 1, capacity) else capacity
  }

  predicate IsPow2(n: nat)
  {
    exists k: nat :: k <= n && Pow2(k) == n
  }

  /** Appending never leaves size > capacity, and the default policy wastes less than half:
      after n >= 1 appends, n <= capacity < 2n and the capacity is a power of two. */
  lemma {:induction false} AppendsStayAmortized(appends: nat)
    requires appends >= 1
    ensures appends <= CapacityAfterAppends(appends) < 2 * appends
    ensures IsPow2(CapacityAfterAppends(appends))
  {
    if appends == 1 {
      assert Pow2(0) == 1;
    } else {
      AppendsStayAmortized(appends - 1);
      var before := CapacityAfterAppends(appends - 1);
      var k: nat :| k <= before && Pow2(k) == before;
      if appends - 1 == before {
        assert CapacityAfterAppends(appends) == 2 * before;
        assert Pow2(k + 1) == 2 * before;
      }
    }
  }
}

=== FILE: iterators.dfy ===
/** Vector::Iterator and Vector::ConstIterator (src/lesson_1/include/vector.h:38-183 and
    src/lesson_1/include/vector.inl:5-363).

    Both C++ classes hold the same two fields, a non-owning pointer to the owning container and an
    index, and implement every operator with the same code. They are one datatype here, `Iter`,
    whose `constness` tag says which of the two it is. The container pointer is generic (`C`) so
    that this module does not depend on the container; a null pointer is `None`. The operators
    that only move or compare positions are here; dereference and subscript read the container and
    live beside it (module AllocatorAwareVector). */
module Iterators {
  import opened Outcomes

  datatype Constness = Mutable | ReadOnly

  datatype Iter<C(==)> = Iter(constness: Constness, container: Option<C>, index: nat)
  {
    /** Bound to a container; a default-constructed iterator is not. */
    predicate Associated()
    {
      container.Some?
    }

    /** operator!= : the (container, index) pairs differ; never fails. */
    function NotEqual(rhs: Iter<C>): (r: bool)
      ensures r <==> container != rhs.container || index != rhs.index
    {
      container != rhs.container || index != rhs.index
    }

    /** operator== is defined as the negation of operator!=. */
    function Equal(rhs: Iter<C>): (r: bool)
      ensures r <==> container == rhs.container && index == rhs.index
    {
      !NotEqual(rhs)
    }

    /** operator< : fails on an unassociated left operand, then on a different container. */
    function Less(rhs: Iter<C>): (r: Result<bool>)
      ensures r.Err? <==> !Associated() || rhs.container != container
      ensures r.Err? ==> r.error == if Associated() then UnrelatedIterators else UnassociatedIterator
      ensures r.Ok? ==> (r.value <==> index < rhs.index)
    {
      if container.None? then Err(UnassociatedIterator)
      else if rhs.container != container then Err(UnrelatedIterators)
      else Ok(index < rhs.index)
    }

    /** operator> : same checks as operator<, in the same order. */
    function Greater(rhs: Iter<C>): (r: Result<bool>)
      ensures r.Err? <==> !Associated() || rhs.container != container
      ensures r.Err? ==> r.error == if Associated() then UnrelatedIterators else UnassociatedIterator
      ensures r.Ok? ==> (r.value <==> index > rhs.index)
    {
      if container.None? then Err(UnassociatedIterator)
      else if rhs.container != container then Err(UnrelatedIterators)
      else Ok(index > rhs.index)
    }

    /** Prefix operator++ : the updated iterator. */
    function Increment(): (r: Result<Iter<C>>)
      ensures r.Err? <==> !Associated()
      ensures r.Err? ==> r.error == UnassociatedIterator
      ensures r.Ok? ==> r.value.container == container && r.value.constness == constness
      ensures r.Ok? ==> r.value.index == index + 1
    {
      if container.None? then Err(UnassociatedIterator)
      else Ok(this.(index := index + 1))
    }

    /** Postfix operator++ : (the copy it returns, the updated iterator). */
    function PostIncrement(): (r: Result<(Iter<C>, Iter<C>)>)
      ensures r.Err? <==> !Associated()
      ensures r.Ok? ==> r.value.0 == this && Increment() == Ok(r.value.1)
    {
      var temp := this;
      match Increment()
      case Err(e) => Err(e)
      case Ok(next) => Ok((temp, next))
    }

    /** Prefix operator-- : steps back one position, but stays at 0. */
    function Decrement(): (r: Result<Iter<C>>)
      ensures r.Err? <==> !Associated()
      ensures r.Err? ==> r.error == UnassociatedIterator
      ensures r.Ok? ==> r.value.container == container && r.value.constness == constness
      ensures r.Ok? ==> r.value.index == if index == 0 then 0 else index - 1
    {
      if container.None? then Err(UnassociatedIterator)
      else if index > 0 then Ok(this.(index := index - 1))
      else Ok(this)
    }

    /** Postfix operator-- : (the copy it returns, the updated iterator). */
    function PostDecrement(): (r: Result<(Iter<C>, Iter<C>)>)
      ensures r.Err? <==> !Associated()
      ensures r.Ok? ==> r.value.0 == this && Decrement() == Ok(r.value.1)
    {
      var temp := this;
      match Decrement()
      case Err(e) => Err(e)
      case Ok(next) => Ok((temp, next))
    }

    /** Binary operator-(Iterator): checks the containers first and the null pointer second, so
        two unassociated iterators fail as unassociated and a null against a bound one as
        unrelated. The index difference is signed. */
    function Difference(rhs: Iter<C>): (r: Result<int>)
      ensures r.Err? <==> container != rhs.container || !Associated()
      ensures r.Err? ==> r.error == if container != rhs.container then UnrelatedIterators else UnassociatedIterator
      ensures r.Ok? ==> rhs.index + r.value == index
    {
      if container != rhs.container then Err(UnrelatedIterators)
      else if container.None? then Err(UnassociatedIterator)
      else Ok(index - rhs.index)
    }

    /** operator+= : a negative offset moves back and clamps at 0 instead of wrapping. */
    function AddAssign(offset: int): (r: Result<Iter<C>>)
      ensures r.Err? <==> !Associated()
      ensures r.Err? ==> r.error == UnassociatedIterator
      ensures r.Ok? ==> r.value.container == container && r.value.constness == constness
      ensures r.Ok? ==> r.value.index == if index + offset < 0 then 0 else index + offset
    {
      if container.None? then Err(UnassociatedIterator)
      else if offset < 0 then
        var decrement: nat := -offset;
        Ok(this.(index := if decrement > index then 0 else index - decrement))
      else
        Ok(this.(index := index + offset))
    }

    /** operator-= is operator+= with the negated offset. */
    function SubAssign(offset: int): (r: Result<Iter<C>>)
      ensures r.Err? <==> !Associated()
      ensures r.Err? ==> r.error == UnassociatedIterator
      ensures r.Ok? ==> r.value.container == container && r.value.constness == constness
      ensures r.Ok? ==> r.value.index == if index < offset then 0 else index - offset
    {
      AddAssign(-offset)
    }

    /** Friend operator+(position, offset): a new iterator at the += position. */
    function Plus(offset: int): (r: Result<Iter<C>>)
      ensures r == AddAssign(offset)
    {
      if container.None? then Err(UnassociatedIterator)
      else AddAssign(offset)
    }

    /** Friend operator-(position, offset): a new iterator at the -= position. */
    function Minus(offset: int): (r: Result<Iter<C>>)
      ensures r == SubAssign(offset)
    {
      if container.None? then Err(UnassociatedIterator)
      else SubAssign(offset)
    }

    /** ConstIterator(const Iterator&): the read-only view of the same position. No operation
        turns a ReadOnly iterator back into a Mutable one. */
    function ToConst(): (r: Iter<C>)
      ensures r.constness == ReadOnly
      ensures r.Equal(this)
    {
      Iter(ReadOnly, container, index)
    }
  }

  /** A default-constructed Iterator or ConstIterator: null container, index 0. */
  function Unassociated<C(==)>(constness: Constness): (r: Iter<C>)
    ensures !r.Associated() && r.index == 0 && r.constness == constness
  {
    Iter(constness, None, 0)
  }

  /** Friend operator+(offset, position). */
  function OffsetPlus<C(==)>(offset: int, position: Iter<C>): (r: Result<Iter<C>>)
    ensures r == position.Plus(offset)
  {
    position.Plus(offset)
  }

  /** Every operator except == and != fails on an unassociated iterator. */
  lemma UnassociatedFails<C>(it: Iter<C>, other: Iter<C>, offset: int)
    requires !it.Associated()
    ensures it.Increment() == Err(UnassociatedIterator) && it.Decrement() == Err(UnassociatedIterator)
    ensures it.PostIncrement() == Err(UnassociatedIterator) && it.PostDecrement() == Err(UnassociatedIterator)
    ensures it.AddAssign(offset) == Err(UnassociatedIterator) && it.SubAssign(offset) == Err(UnassociatedIterator)
    ensures it.Plus(offset) == Err(UnassociatedIterator) && it.Minus(offset) == Err(UnassociatedIterator)
    ensures it.Less(other) == Err(UnassociatedIterator) && it.Greater(other) == Err(UnassociatedIterator)
    ensures it.Difference(other).Err?
  {
  }

  /** ++ followed by -- returns to the starting position. */
  lemma IncrementThenDecrement<C>(it: Iter<C>)
    requires it.Associated()
    ensures it.Increment().Ok? && it.Increment().value.Decrement() == Ok(it)
  {
  }

  /** -- followed by ++ returns to the starting position, except at index 0 where -- clamps. */
  lemma DecrementThenIncrement<C>(it: Iter<C>)
    requires it.Associated()
    ensures it.Decrement().Ok? && it.Decrement().value.Increment().Ok?
    ensures it.Decrement().value.Increment() == Ok(it) <==> it.index > 0
  {
  }

  /** Subtracting two related iterators and adding the difference back gives the first one. */
  lemma DifferenceRoundTrip<C>(a: Iter<C>, b: Iter<C>)
    requires a.Difference(b).Ok? && a.constness == b.constness
    ensures b.Plus(a.Difference(b).value) == Ok(a)
  {
  }

  /** For two related iterators exactly one of <, > and == holds. */
  lemma Trichotomy<C>(a: Iter<C>, b: Iter<C>)
    requires a.Associated() && a.container == b.container
    ensures a.Less(b).Ok? && a.Greater(b).Ok?
    ensures a.Less(b) == b.Greater(a)
    ensures (if a.Less(b).value then 1 else 0) + (if a.Greater(b).value then 1 else 0)
          + (if a.Equal(b) then 1 else 0) == 1
  {
  }

  /** `steps` applications of prefix ++. */
  function Advance<C(==)>(it: Iter<C>, steps: nat): Result<Iter<C>>
    decreases steps
  {
    if steps == 0 then Ok(it)
    else
      match it.Increment()
      case Err(e) => Err(e)
      case Ok(next) => Advance(next, steps - 1)
  }

  /** `steps` applications of prefix --. */
  function Retreat<C(==)>(it: Iter<C>, steps: nat): Result<Iter<C>>
    decreases steps
  {
    if steps == 0 then Ok(it)
    else
      match it.Decrement()
      case Err(e) => Err(e)
      case Ok(next) => Retreat(next, steps - 1)
  }

  /** Applying ++ n times lands where += n does. */
  lemma {:induction false} AdvanceIsAddAssign<C>(it: Iter<C>, steps: nat)
    requires it.Associated()
    ensures Advance(it, steps) == it.AddAssign(steps)
    decreases steps
  {
    if steps > 0 {
      AdvanceIsAddAssign(it.Increment().value, steps - 1);
    }
  }

  /** Applying -- n times lands where -= n does: both clamp at index 0. */
  lemma {:induction false} RetreatIsSubAssign<C>(it: Iter<C>, steps: nat)
    requires it.Associated()
    ensures Retreat(it, steps) == it.SubAssign(steps)
    decreases steps
  {
    if steps > 0 {
      RetreatIsSubAssign(it.Decrement().value, steps - 1);
    }
  }
}

=== FILE: outcomes.dfy ===
/** Failure conditions of the container and its iterators, and the result type that carries them.
    The C++ code reports each of these by throwing; the model returns them. */
module Outcomes {

  /** The distinguishable failure kinds. */
  datatype Error =
    | OutOfRange          // std::out_of_range("Index out of range.")
    | UnassociatedIterator // std::runtime_error("Unassociated iterator.")
    // std::runtime_error for iterators of two different containers: "Unrelated iterators." from
    // < and >, "Cannot subtract iterators of different containers." from binary -
    | UnrelatedIterators
    | BadFunctionCall      // std::bad_function_call: calling an empty growth-policy std::function

  datatype Result<+R> = Ok(value: R) | Err(error: Error)

  datatype Option<+T> = None | Some(value: T)
}

=== FILE: scenarios.dfy ===
/** Client programs over both containers, following the situations the repository's own test
    scenarios set up (src/lesson_1/tests/vector_test.cpp, src/lesson_0/tests/vector_test.cpp), and
    the concrete inputs behind the findings. Each builds its vectors locally and states the
    observable outcome. */
module Scenarios {
  import opened Outcomes
  import opened Iterators
  import GrowthPolicy
  import AllocatorAwareVector
  import SimpleVector

  /** std::allocator: one stateless instance; only move assignment propagates it. */
  const StdTraits := AllocatorAwareVector.AllocatorTraits(false, true, false)
  const StdAllocator := AllocatorAwareVector.Allocator(0)

  /** Vector{a, b, c}: at, front and back read the listed values; at(3) is out of range. */
  method ListAccess(a: int, b: int, c: int) returns (middle: Result<int>, front: Result<int>, back: Result<int>, beyond: Result<int>)
    ensures middle == Ok(b) && front == Ok(a) && back == Ok(c)
    ensures beyond == Err(OutOfRange)
  {
    var v := new AllocatorAwareVector.Vector.FromList([a, b, c], StdAllocator, StdTraits, GrowthPolicy.Default);
    middle := v.Get(1);
    front := v.Front();
    back := v.Back();
    beyond := v.Get(3);
  }

  /** An empty vector: at(0) is out of range, and so are front() and back(); back()'s index
      wraps and is rejected like any other. */
  method EmptyAccess() returns (at0: Result<int>, front: Result<int>, back: Result<int>, empty: bool)
    ensures at0 == Err(OutOfRange) && front == Err(OutOfRange) && back == Err(OutOfRange) && empty
  {
    var v := new AllocatorAwareVector.Vector<int>.Default(StdTraits);
    at0 := v.Get(0);
    front := v.Front();
    back := v.Back();
    empty := v.Empty();
  }

  /** push_back three values into a default vector, then pop_back once and shrink_to_fit: the
      default policy takes the capacity through 1, 2 and 4, popping keeps it, and shrinking brings
      it down to the size. */
  method PushThreePopOne(a: int, b: int, c: int) returns (size: nat, capacity: nat, back: Result<int>, shrunk: nat)
    ensures size == 2 && capacity == 4 && back == Ok(b)
    ensures shrunk == 2
  {
    var v := new AllocatorAwareVector.Vector<int>.Default(StdTraits);
    GrowthPolicy.DefaultGrowthDoubles(0, 0);
    var r := v.EmplaceBack(a);
    GrowthPolicy.DefaultGrowthDoubles(1, 1);
    r := v.EmplaceBack(b);
    GrowthPolicy.DefaultGrowthDoubles(2, 2);
    r := v.EmplaceBack(c);
    v.PopBack();
    size := v.Size();
    capacity := v.Capacity();
    back := v.Back();
    v.ShrinkToFit();
    shrunk := v.Capacity();
  }

  /** push_back of every value, in order, into a default vector: the vector holds the values and
      its capacity follows the default growth sequence, so it is a power of two at most twice the
      size. */
  method AppendAll(values: seq<int>) returns (elements: seq<int>, capacity: nat)
    ensures elements == values
    ensures capacity == GrowthPolicy.CapacityAfterAppends(|values|)
    ensures values != [] ==> |values| <= capacity < 2 * |values| && GrowthPolicy.IsPow2(capacity)
  {
    var v := new AllocatorAwareVector.Vector<int>.Default(StdTraits);
    var i := 0;
    while i < |values|
      invariant 0 <= i <= |values|
      invariant v.Valid() && v.Elements() == values[..i]
      invariant v.capacity == GrowthPolicy.CapacityAfterAppends(i)
      invariant v.growth == Some(GrowthPolicy.Default)
      invariant v.data == null || fresh(v.data)
    {
      var _ := v.EmplaceBack(values[i]);
      i := i + 1;
    }
    elements := v.Elements();
    capacity := v.Capacity();
    if values != [] {
      GrowthPolicy.AppendsStayAmortized(|values|);
    }
  }

  /** Iterator arithmetic over Vector{a, b, c}: *(begin + 1), *(end - 1), end - begin,
      begin - (begin + 1), begin[2], and end -= 4 clamping at begin. */
  method IteratorWalk(a: int, b: int, c: int)
    returns (second: Result<int>, last: Result<int>, length: Result<int>, back: Result<int>, third: Result<int>, clamped: bool)
    ensures second == Ok(b) && last == Ok(c) && third == Ok(c)
    ensures length == Ok(3) && back == Ok(-1)
    ensures clamped
  {
    var v := new AllocatorAwareVector.Vector.FromList([a, b, c], StdAllocator, StdTraits, GrowthPolicy.Default);
    var begin := v.Begin();
    var end := v.End();
    var mid := begin.Plus(1).value;
    second := AllocatorAwareVector.Deref(mid);
    last := AllocatorAwareVector.Deref(end.Minus(1).value);
    length := end.Difference(begin);
    back := begin.Difference(mid);
    third := AllocatorAwareVector.Subscript(begin, 2);
    var moved := end.SubAssign(4);
    clamped := moved.Ok? && moved.value.Equal(begin);
  }

  /** A default-constructed iterator: dereference, increment and subscript all fail. */
  method UnassociatedIteratorFails() returns (value: Result<int>, next: Result<Iter<AllocatorAwareVector.Vector<int>>>, indexed: Result<int>)
    ensures value == Err(UnassociatedIterator) && next == Err(UnassociatedIterator)
    ensures indexed == Err(UnassociatedIterator)
  {
    var it: Iter<AllocatorAwareVector.Vector<int>> := Unassociated(Mutable);
    value := AllocatorAwareVector.Deref(it);
    next := it.Increment();
    indexed := AllocatorAwareVector.Subscript(it, 0);
  }

  /** A copy of a full vector cannot grow: the copy constructor left its growth policy empty. */
  method CopyCannotGrow(a: int, b: int) returns (copied: Result<Iter<AllocatorAwareVector.Vector<int>>>, corrected: Result<Iter<AllocatorAwareVector.Vector<int>>>)
    ensures copied == Err(BadFunctionCall)
    ensures corrected.Ok? && corrected.value.index == 1
  {
    var v := new AllocatorAwareVector.Vector.FromList([a], StdAllocator, StdTraits, GrowthPolicy.Default);
    var copy := new AllocatorAwareVector.Vector.Copy(v);
    copied := copy.EmplaceBack(b);
    var fixedCopy := new AllocatorAwareVector.Vector.CopyWithPolicy(v);
    corrected := fixedCopy.EmplaceBack(b);
  }

  /** A moved-to vector cannot grow either, while the corrected move constructor keeps the policy. */
  method MoveCannotGrow(a: int, b: int) returns (moved: Result<Iter<AllocatorAwareVector.Vector<int>>>, corrected: Result<Iter<AllocatorAwareVector.Vector<int>>>)
    ensures moved == Err(BadFunctionCall)
    ensures corrected.Ok? && corrected.value.index == 1
  {
    var v := new AllocatorAwareVector.Vector.FromList([a], StdAllocator, StdTraits, GrowthPolicy.Default);
    var target := new AllocatorAwareVector.Vector.Move(v);
    moved := target.EmplaceBack(b);
    var w := new AllocatorAwareVector.Vector.FromList([a], StdAllocator, StdTraits, GrowthPolicy.Default);
    var fixedTarget := new AllocatorAwareVector.Vector.MoveWithPolicy(w);
    corrected := fixedTarget.EmplaceBack(b);
  }

  /** (begin() + 1)[0] over Vector{a, b, c}: as written it reads a, the random-access meaning is b. */
  method SubscriptFromMiddle(a: int, b: int, c: int) returns (asWritten: Result<int>, intended: Result<int>)
    ensures asWritten == Ok(a) && intended == Ok(b)
  {
    var v := new AllocatorAwareVector.Vector.FromList([a, b, c], StdAllocator, StdTraits, GrowthPolicy.Default);
    var mid := v.Begin().Plus(1).value;
    asWritten := AllocatorAwareVector.Subscript(mid, 0);
    intended := AllocatorAwareVector.SubscriptFromPosition(mid, 0);
  }

  /** Copy assignment into a vector that already holds elements replaces them, and leaves the
      source as it was. */
  method CopyOverExisting(a: int, b: int, c: int) returns (target: seq<int>, source: seq<int>)
    ensures target == [a, b, c] && source == [a, b, c]
  {
    var v := new AllocatorAwareVector.Vector.FromList([a, b, c], StdAllocator, StdTraits, GrowthPolicy.Default);
    var other := new AllocatorAwareVector.Vector.FromList([c], StdAllocator, StdTraits, GrowthPolicy.Default);
    other.CopyAssign(v);
    target := other.Elements();
    source := v.Elements();
  }

  /** Move assignment into a vector that already holds elements: the target takes the values and
      the source ends empty with no storage. */
  method MoveOverExisting(a: int, b: int, c: int) returns (target: seq<int>, sourceSize: nat, sourceCapacity: nat)
    ensures target == [a, b, c] && sourceSize == 0 && sourceCapacity == 0
  {
    var v := new AllocatorAwareVector.Vector.FromList([a, b, c], StdAllocator, StdTraits, GrowthPolicy.Default);
    var other := new AllocatorAwareVector.Vector.FromList([c], StdAllocator, StdTraits, GrowthPolicy.Default);
    other.MoveAssign(v);
    target := other.Elements();
    sourceSize := v.Size();
    sourceCapacity := v.Capacity();
  }

  /** Move assignment between vectors whose allocators compare unequal and do not propagate: as
      written the source's block ends up held by neither vector and released by neither; the
      corrected assignment releases it through the source. */
  method MoveLeaksSourceBlock(a: int) returns (moved: seq<int>, ghost leaked: bool, ghost releasedWhenCorrected: bool)
    ensures moved == [a]
    ensures leaked && releasedWhenCorrected
  {
    var stateful := AllocatorAwareVector.AllocatorTraits(false, false, false);
    var source := new AllocatorAwareVector.Vector.FromList([a], AllocatorAwareVector.Allocator(1), stateful, GrowthPolicy.Default);
    var target := new AllocatorAwareVector.Vector.FromList([], AllocatorAwareVector.Allocator(2), stateful, GrowthPolicy.Default);
    ghost var block := source.data;
    target.MoveAssign(source);
    moved := target.Elements();
    leaked := block != target.data && block != source.data
      && block !in target.released && block !in source.released;
    var source2 := new AllocatorAwareVector.Vector.FromList([a], AllocatorAwareVector.Allocator(1), stateful, GrowthPolicy.Default);
    var target2 := new AllocatorAwareVector.Vector.FromList([], AllocatorAwareVector.Allocator(2), stateful, GrowthPolicy.Default);
    ghost var block2 := source2.data;
    target2.MoveAssignReleasing(source2);
    releasedWhenCorrected := block2 in source2.released;
  }

  /** Lesson 0: resize(3) and then resize(0) leaves no block but still reports size 3 and
      capacity 3; the corrected resize reports 0 and 0. */
  method SimpleResizeToZero() returns (size: nat, capacity: nat, hasBlock: bool, fixedSize: nat, fixedCapacity: nat)
    ensures size == 3 && capacity == 3 && !hasBlock
    ensures fixedSize == 0 && fixedCapacity == 0
  {
    var v := new SimpleVector.Vector<int>(0);
    v.Resize(3, 0);
    v.Resize(0, 0);
    size := v.size;
    capacity := v.capacity;
    hasBlock := v.data != null;
    var w := new SimpleVector.Vector<int>(0);
    w.ResizeCorrected(3, 0);
    w.ResizeCorrected(0, 0);
    fixedSize := w.Size();
    fixedCapacity := w.Capacity();
  }

  /** Lesson 0: reserve(10) and then resize(5) ends with capacity 10 and size 5, so the closing
      assert(capacity_ == size_) of resize does not hold. */
  method SimpleReserveThenResize() returns (size: nat, capacity: nat)
    ensures size == 5 && capacity == 10 && capacity != size
  {
    var v := new SimpleVector.Vector<int>(0);
    v.Reserve(10);
    v.Resize(5, 0);
    size := v.Size();
    capacity := v.Capacity();
  }

  /** Lesson 0: the copy-and-swap assignment gives the target the source's capacity and leaves
      the source alone. */
  method SimpleCopyAssign() returns (capacity: nat, sourceCapacity: nat, empty: bool)
    ensures capacity == 10 && sourceCapacity == 10 && empty
  {
    var v := new SimpleVector.Vector<int>(10);
    var other := new SimpleVector.Vector<int>(2);
    other.CopyAssign(v);
    capacity := other.Capacity();
    sourceCapacity := v.Capacity();
    empty := other.Empty();
  }
}

=== FILE: simple_vector.dfy ===
/** The first container, CppTraining::Vector<T> of lesson 0 (src/lesson_0/include/vector.h,
    src/lesson_0/include/vector.inl): size, capacity and a block obtained with realloc and
    released with free. It has no element access, no append and no allocator.

    The block is an array whose length is the capacity; slots [0, size) are live. realloc is a new
    array into which the live elements are carried over; free is dropping the array. */
module SimpleVector {

  class Vector<T(0)> {
    var data: array?<T>
    var size: nat
    var capacity: nat

    /** size <= capacity; a block is held exactly when capacity > 0, and it has capacity slots. */
    ghost predicate Valid()
      reads this
    {
      && size <= capacity
      && (data == null <==> capacity == 0)
      && (data != null ==> data.Length == capacity)
    }

    /** The live elements, slots [0, size). */
    function Elements(): (s: seq<T>)
      reads this, data
      requires Valid()
      ensures |s| == size
    {
      if data == null then [] else data[..size]
    }

    /** Vector(capacity = 0): an empty vector with exactly `capacity` slots. */
    constructor (capacity: nat)
      ensures Valid() && Elements() == []
      ensures this.capacity == capacity && (data == null <==> capacity == 0)
      ensures data == null || fresh(data)
    {
      data := null;
      size := 0;
      this.capacity := 0;
      new;
      Reserve(capacity);
    }

    /** Vector(const Vector&): delegates to Vector(other.capacity_) and, when that capacity is not
        0, copy-constructs other's live elements and takes other's size. */
    constructor Copy(other: Vector<T>)
      requires other.Valid()
      ensures Valid() && Elements() == other.Elements() && capacity == other.capacity
      ensures data == null || fresh(data)
    {
      data := null;
      size := 0;
      capacity := 0;
      new;
      Reserve(other.capacity);
      if capacity > 0 {
        var i := 0;
        while i < other.size
          invariant 0 <= i <= other.size
          invariant data != null && data[..i] == other.Elements()[..i]
          modifies data
        {
          data[i] := other.data[i];
          i := i + 1;
        }
        size := other.size;
      }
    }

    /** Vector(Vector&&): takes size, capacity and block; the source is left empty with no block. */
    constructor Move(other: Vector<T>)
      requires other.Valid()
      modifies other
      ensures Valid() && other.Valid()
      ensures Elements() == old(other.Elements())
      ensures data == old(other.data) && capacity == old(other.capacity)
      ensures other.size == 0 && other.capacity == 0 && other.data == null
    {
      size := other.size;
      capacity := other.capacity;
      data := other.data;
      new;
      other.size := 0;
      other.capacity := 0;
      other.data := null;
    }

    /** operator=(const Vector&), copy-and-swap: copy-construct a temporary from other and swap
        with it; the temporary then releases this vector's former block. */
    method CopyAssign(other: Vector<T>)
      requires Valid() && other.Valid()
      modifies this
      ensures Valid()
      ensures Elements() == old(other.Elements()) && capacity == old(other.capacity)
      ensures data == null || fresh(data)
    {
      var copy := new Vector.Copy(other);
      Swap(this, copy);
    }

    /** operator=(Vector&&): unless self-assigned, releases its own block (clear, shrink_to_fit),
        takes other's size, capacity and block, and leaves other empty with no block. */
    method MoveAssign(other: Vector<T>)
      requires Valid() && other.Valid()
      modifies this, other
      ensures Valid() && other.Valid()
      ensures this == other ==> Elements() == old(Elements()) && capacity == old(capacity) && data == old(data)
      ensures this != other ==> Elements() == old(other.Elements())
      ensures this != other ==> capacity == old(other.capacity) && data == old(other.data)
      ensures this != other ==> other.size == 0 && other.capacity == 0 && other.data == null
    {
      if this != other {
        Clear();
        ShrinkToFit();
        size := other.size;
        capacity := other.capacity;
        data := other.data;
        other.size := 0;
        other.capacity := 0;
        other.data := null;
      }
    }

    /** ~Vector(): destroys the live elements and frees the block; the model ends in the state of
        a vector that holds nothing. */
    method Dispose()
      requires Valid()
      modifies this
      ensures Valid() && Elements() == [] && capacity == 0 && data == null
    {
      size := 0;
      data := null;
      capacity := 0;
    }

    /** size() */
    function Size(): (r: nat)
      reads this, data
      requires Valid()
      ensures r == |Elements()|
    {
      size
    }

    /** capacity() */
    function Capacity(): (r: nat)
      reads this
      requires Valid()
      ensures r >= size
      ensures r == 0 <==> data == null
    {
      capacity
    }

    /** empty() */
    function Empty(): (r: bool)
      reads this, data
      requires Valid()
      ensures r <==> Elements() == []
    {
      size == 0
    }

    /** reserve(n): when n exceeds the capacity, reallocates to exactly n slots; otherwise does
        nothing. */
    method Reserve(n: nat)
      requires Valid()
      modifies this
      ensures Valid()
      ensures Elements() == old(Elements())
      ensures capacity == if n > old(capacity) then n else old(capacity)
      ensures if n > old(capacity) then fresh(data) else data == old(data)
    {
      if n > capacity {
        var block := new T[n];
        var i := 0;
        while i < size
          invariant 0 <= i <= size
          invariant block[..i] == Elements()[..i]
          modifies block
        {
          block[i] := data[i];
          i := i + 1;
        }
        data := block;
        capacity := n;
      }
    }

    /** resize(n) as written. Shrinking destroys the tail; for n == 0 it frees the block but
        leaves size_ and capacity_ as they were, so a non-empty vector ends with no block and a
        stale size (the state is no longer Valid). Otherwise shrinking reallocates to exactly n
        slots, and growing reserves n and value-initializes the new slots (`init` is T{}). The
        closing assert(capacity_ == size_) holds exactly in the cases the last ensures lists. */
    method Resize(n: nat, init: T)
      requires Valid()
      modifies this, data
      ensures Valid() <==> !(0 == n < old(size))
      ensures 0 == n < old(size) ==> data == null && size == old(size) && capacity == old(capacity)
      ensures !(0 == n < old(size)) ==> size == n
      ensures !(0 == n < old(size)) ==>
        Elements() == if n <= old(size) then old(Elements())[..n]
                      else old(Elements()) + seq(n - old(size), _ => init)
      ensures 0 < n < old(size) ==> capacity == n
      ensures data == null || data == old(data) || fresh(data)
      ensures 0 < n < old(size) ==> fresh(data)
      ensures old(size) <= n <= old(capacity) ==> data == old(data)
      ensures n > old(capacity) ==> fresh(data)
      ensures n >= old(size) ==> capacity == if n > old(capacity) then n else old(capacity)
      ensures (capacity == size) <==>
        if n < old(size) then n > 0 || old(size) == old(capacity) else old(capacity) <= n
    {
      if n < size {
        if n == 0 {
          data := null;
        } else {
          ShrinkBlock(n);
        }
      } else {
        GrowInitialized(n, init);
      }
    }

    /** resize(n) with the n == 0 path also resetting size_ and capacity_, checked against
        capacity_ >= size_ as the allocator-aware Vector does. */
    method ResizeCorrected(n: nat, init: T)
      requires Valid()
      modifies this, data
      ensures Valid() && size == n && capacity >= size
      ensures Elements() == if n <= old(size) then old(Elements())[..n]
                            else old(Elements()) + seq(n - old(size), _ => init)
      ensures 0 == n < old(size) ==> capacity == 0 && data == null
      ensures data == null || data == old(data) || fresh(data)
      ensures 0 < n < old(size) ==> fresh(data)
      ensures old(size) <= n <= old(capacity) ==> data == old(data)
      ensures n > old(capacity) ==> fresh(data)
    {
      if n < size {
        if n == 0 {
          data := null;
          size := 0;
          capacity := 0;
        } else {
          ShrinkBlock(n);
        }
      } else {
        GrowInitialized(n, init);
      }
    }

    /** The shrinking path of resize for n > 0: realloc to exactly n slots keeping the first n
        elements, then capacity_ = size_ = n. */
    method ShrinkBlock(n: nat)
      requires Valid() && 0 < n < size
      modifies this
      ensures Valid() && size == n && capacity == n
      ensures Elements() == old(Elements())[..n]
      ensures fresh(data)
    {
      var block := new T[n];
      var i := 0;
      while i < n
        invariant 0 <= i <= n
        invariant block[..i] == Elements()[..i]
        modifies block
      {
        block[i] := data[i];
        i := i + 1;
      }
      data := block;
      capacity := n;
      size := n;
    }

    /** The growing path of resize (n >= size): reserve(n), value-initialize [size, n), size_ = n. */
    method GrowInitialized(n: nat, init: T)
      requires Valid() && n >= size
      modifies this, data
      ensures Valid() && size == n
      ensures Elements() == old(Elements()) + seq(n - old(size), _ => init)
      ensures capacity == if n > old(capacity) then n else old(capacity)
      ensures if n > old(capacity) then fresh(data) else data == old(data)
    {
      Reserve(n);
      ghost var kept := Elements();
      var i := size;
      while i < n
        invariant size <= i <= n <= capacity
        invariant data != null ==> data[..size] == kept
        invariant forall k :: size <= k < i ==> data != null && data[k] == init
        modifies data
      {
        data[i] := init;
        i := i + 1;
      }
      size := n;
      assert Elements() == kept + seq(n - old(size), _ => init);
    }

    /** clear(): destroys every live element; block and capacity stay. */
    method Clear()
      requires Valid()
      modifies this
      ensures Valid() && Elements() == []
      ensures capacity == old(capacity) && data == old(data)
    {
      size := 0;
    }

    /** shrink_to_fit(): frees the block when empty; otherwise reallocates to exactly size slots
        unless the capacity already equals the size. */
    method ShrinkToFit()
      requires Valid()
      modifies this
      ensures Valid() && Elements() == old(Elements())
      ensures capacity == size
      ensures size == 0 ==> data == null
      ensures data == null || data == old(data) || fresh(data)
    {
      if size == 0 {
        data := null;
        capacity := 0;
      } else if size != capacity {
        var block := new T[size];
        var i := 0;
        while i < size
          invariant 0 <= i <= size
          invariant block[..i] == Elements()[..i]
          modifies block
        {
          block[i] := data[i];
          i := i + 1;
        }
        data := block;
        capacity := size;
      }
    }
  }

  /** swap(lhs, rhs): exchanges size, capacity and block pointer. */
  method Swap<T(0)>(lhs: Vector<T>, rhs: Vector<T>)
    requires lhs.Valid() && rhs.Valid()
    modifies lhs, rhs
    ensures lhs.Valid() && rhs.Valid()
    ensures lhs.Elements() == old(rhs.Elements()) && rhs.Elements() == old(lhs.Elements())
    ensures lhs.capacity == old(rhs.capacity) && rhs.capacity == old(lhs.capacity)
    ensures lhs.data == old(rhs.data) && rhs.data == old(lhs.data)
  {
    var size := lhs.size;
    lhs.size := rhs.size;
    rhs.size := size;
    var capacity := lhs.capacity;
    lhs.capacity := rhs.capacity;
    rhs.capacity := capacity;
    var data := lhs.data;
    lhs.data := rhs.data;
    rhs.data := data;
  }
}

=== FILE: vector.dfy ===
/** The allocator-aware dynamic array CppTraining::Vector<T, Allocator> of lesson 1
    (src/lesson_1/include/vector.h, src/lesson_1/include/vector.inl).

    The storage block is an array whose length is the capacity; slots [0, size) are live and the
    rest are raw (they hold whatever value the array has there). A null block means no storage.
    The allocator is reduced to its identity (allocators compare equal exactly when their ids do)
    and the allocator type's three propagation traits; the growth policy is a total function of
    (size, capacity), or None for the empty std::function a copy or move constructor leaves. */
module AllocatorAwareVector {
  import opened Outcomes
  import opened Iterators
  import GrowthPolicy

  /** The largest size_type value: what `size_ - 1` wraps to when size_ is 0. */
  const SIZE_MAX: nat := 0xFFFF_FFFF_FFFF_FFFF

  /** An allocator instance, compared by identity. */
  datatype Allocator = Allocator(id: nat)

  /** propagate_on_container_copy_assignment, propagate_on_container_move_assignment and
      propagate_on_container_swap of the allocator type: constants shared by every vector of one type. */
  datatype AllocatorTraits = AllocatorTraits(
    propagateOnCopyAssignment: bool,
    propagateOnMoveAssignment: bool,
    propagateOnSwap: bool)

  /** The signature of growth_policy_type: (size, capacity) -> extra capacity. */
  type GrowthFunction = (nat, nat) -> nat

  /** The index `back()` passes to operator[]: size_ - 1 in size_type arithmetic. */
  function LastIndex(size: nat): nat
  {
    if size == 0 then SIZE_MAX else size - 1
  }

  class Vector<T(0)> {
    var data: array?<T>
    var size: nat
    var capacity: nat
    var allocator: Allocator
    var growth: Option<GrowthFunction>
    const traits: AllocatorTraits
    /** The blocks this vector has handed back to its allocator (deallocate), in order to tell a
        block that was released from one that was only forgotten. */
    ghost var released: set<array<T>>

    /** size <= capacity; a block is held exactly when capacity > 0, and it has capacity slots. */
    ghost predicate Valid()
      reads this
    {
      && size <= capacity
      && (data == null <==> capacity == 0)
      && (data != null ==> data.Length == capacity)
    }

    /** The live elements, slots [0, size). */
    function Elements(): (s: seq<T>)
      reads this, data
      requires Valid()
      ensures |s| == size
    {
      if data == null then [] else data[..size]
    }

    /** Vector(capacity, allocator, growth_policy): an empty vector holding exactly `capacity` slots. */
    constructor (capacity: nat, allocator: Allocator, traits: AllocatorTraits, growth: GrowthFunction)
      ensures Valid() && Elements() == []
      ensures this.capacity == capacity && (data == null <==> capacity == 0)
      ensures this.allocator == allocator && this.traits == traits && this.growth == Some(growth)
      ensures data == null || fresh(data)
      ensures released == {}
    {
      this.allocator := allocator;
      this.traits := traits;
      this.growth := Some(growth);
      data := null;
      size := 0;
      this.capacity := 0;
      released := {};
      new;
      Reserve(capacity);
    }

    /** Vector() with every default argument: no storage, the default allocator (id 0) and
        DefaultGrowthPolicy. */
    constructor Default(traits: AllocatorTraits)
      ensures Valid() && Elements() == []
      ensures capacity == 0 && data == null
      ensures allocator == Allocator(0) && this.traits == traits && growth == Some(GrowthPolicy.Default)
      ensures released == {}
    {
      data := null;
      size := 0;
      capacity := 0;
      allocator := Allocator(0);
      this.traits := traits;
      growth := Some(GrowthPolicy.Default);
      released := {};
    }

    /** Vector(initializer_list): reserves exactly the list's length, then emplaces each value. */
    constructor FromList(values: seq<T>, allocator: Allocator, traits: AllocatorTraits, growth: GrowthFunction)
      ensures Valid() && Elements() == values && capacity == |values|
      ensures this.allocator == allocator && this.traits == traits && this.growth == Some(growth)
      ensures data == null || fresh(data)
      ensures released == {}
    {
      this.allocator := allocator;
      this.traits := traits;
      this.growth := Some(growth);
      data := null;
      size := 0;
      capacity := 0;
      released := {};
      new;
      Reserve(|values|);
      var i := 0;
      while i < |values|
        invariant 0 <= i <= |values|
        invariant Valid() && size == i && capacity == |values|
        invariant Elements() == values[..i]
        invariant this.allocator == allocator && this.growth == Some(growth)
        invariant data == null || fresh(data)
        invariant released == {}
      {
        var _ := EmplaceBack(values[i]);
        i := i + 1;
      }
    }

    /** Vector(const Vector&) as written: same capacity, a copy of every live element, the
        allocator select_on_container_copy_construction gives (a copy), and an EMPTY growth policy,
        because the constructor does not initialize growth_policy_. */
    constructor Copy(other: Vector<T>)
      requires other.Valid()
      ensures Valid() && Elements() == other.Elements()
      ensures capacity == other.capacity && allocator == other.allocator && traits == other.traits
      ensures growth == None
      ensures data == null || fresh(data)
      ensures released == {}
    {
      size := 0;
      capacity := other.capacity;
      allocator := other.allocator;
      traits := other.traits;
      growth := None;
      data := null;
      released := {};
      new;
      CopyElementsFrom(other);
    }

    /** The copy constructor with growth_policy_ copied as well (the corrected form). */
    constructor CopyWithPolicy(other: Vector<T>)
      requires other.Valid()
      ensures Valid() && Elements() == other.Elements()
      ensures capacity == other.capacity && allocator == other.allocator && traits == other.traits
      ensures growth == other.growth
      ensures data == null || fresh(data)
      ensures released == {}
    {
      size := 0;
      capacity := other.capacity;
      allocator := other.allocator;
      traits := other.traits;
      growth := other.growth;
      data := null;
      released := {};
      new;
      CopyElementsFrom(other);
    }

    /** The body shared by the two copy constructors: allocate `capacity` slots when capacity > 0
        and copy-construct other's live elements into them. */
    method CopyElementsFrom(other: Vector<T>)
      requires other.Valid() && this != other
      requires data == null && size == 0 && capacity == other.capacity
      modifies this
      ensures Valid() && Elements() == other.Elements()
      ensures capacity == old(capacity) && allocator == old(allocator) && growth == old(growth)
      ensures data == null || fresh(data)
      ensures released == old(released)
    {
      if capacity > 0 {
        data := new T[capacity];
        var i := 0;
        while i < other.size
          invariant 0 <= i <= other.size
          invariant data != null && data.Length == capacity && fresh(data)
          invariant data[..i] == other.Elements()[..i]
          modifies data
        {
          data[i] := other.data[i];
          i := i + 1;
        }
        size := other.size;
      }
    }

    /** Vector(Vector&&): takes the block, size, capacity and allocator; the source is left with
        size 0, capacity 0 and no block. growth_policy_ is not initialized here either. */
    constructor Move(other: Vector<T>)
      requires other.Valid()
      modifies other
      ensures Valid() && other.Valid()
      ensures Elements() == old(other.Elements())
      ensures data == old(other.data) && capacity == old(other.capacity)
      ensures allocator == old(other.allocator) && traits == other.traits && growth == None
      ensures other.size == 0 && other.capacity == 0 && other.data == null
      ensures other.allocator == old(other.allocator) && other.growth == old(other.growth)
      ensures other.released == old(other.released)
      ensures released == {}
    {
      size := other.size;
      capacity := other.capacity;
      data := other.data;
      allocator := other.allocator;
      traits := other.traits;
      growth := None;
      released := {};
      new;
      other.size := 0;
      other.capacity := 0;
      other.data := null;
    }

    /** The move constructor with growth_policy_ moved as well (the corrected form). */
    constructor MoveWithPolicy(other: Vector<T>)
      requires other.Valid()
      modifies other
      ensures Valid() && other.Valid()
      ensures Elements() == old(other.Elements())
      ensures data == old(other.data) && capacity == old(other.capacity)
      ensures allocator == old(other.allocator) && traits == other.traits && growth == old(other.growth)
      ensures other.size == 0 && other.capacity == 0 && other.data == null
      ensures other.allocator == old(other.allocator) && other.growth == old(other.growth)
      ensures other.released == old(other.released)
      ensures released == {}
    {
      size := other.size;
      capacity := other.capacity;
      data := other.data;
      allocator := other.allocator;
      traits := other.traits;
      growth := other.growth;
      released := {};
      new;
      other.size := 0;
      other.capacity := 0;
      other.data := null;
    }

    /** ~Vector(): destroys the live elements and releases the block; the model ends in the state
        of a vector that holds nothing. */
    method Dispose()
      requires Valid()
      modifies this
      ensures Valid() && Elements() == [] && capacity == 0 && data == null
      ensures allocator == old(allocator) && growth == old(growth)
      ensures released == old(released) + Dropped(old(data))
    {
      size := 0;
      if data != null {
        released := released + {data};
      }
      data := null;
      capacity := 0;
    }

    /** size() */
    function Size(): (r: nat)
      reads this, data
      requires Valid()
      ensures r == |Elements()|
    {
      size
    }

    /** capacity() */
    function Capacity(): (r: nat)
      reads this
      requires Valid()
      ensures r >= size
      ensures r == 0 <==> data == null
    {
      capacity
    }

    /** empty() */
    function Empty(): (r: bool)
      reads this, data
      requires Valid()
      ensures r <==> Elements() == []
    {
      size == 0
    }

    /** operator[] and at() (both overloads; at() forwards to operator[]): the element at
        `index`, or out_of_range when index >= size. */
    function Get(index: nat): (r: Result<T>)
      reads this, data
      requires Valid()
      ensures r.Ok? <==> index < |Elements()|
      ensures r.Ok? ==> r.value == Elements()[index]
      ensures r.Err? ==> r.error == OutOfRange
    {
      if index >= size then Err(OutOfRange) else Ok(data[index])
    }

    /** Assignment through the reference the non-const operator[], at(), front(), back() or an
        Iterator's operator* return: same bounds check, then the slot is overwritten. */
    method Set(index: nat, value: T) returns (r: Result<()>)
      requires Valid()
      modifies data
      ensures Valid()
      ensures r.Ok? <==> index < old(size)
      ensures r.Err? ==> r.error == OutOfRange
      ensures Elements() == if r.Ok? then old(Elements())[index := value] else old(Elements())
    {
      if index >= size {
        return Err(OutOfRange);
      }
      data[index] := value;
      return Ok(());
    }

    /** front() is operator[](0). */
    function Front(): (r: Result<T>)
      reads this, data
      requires Valid()
      ensures r.Ok? <==> Elements() != []
      ensures r.Ok? ==> r.value == Elements()[0]
      ensures r.Err? ==> r.error == OutOfRange
    {
      Get(0)
    }

    /** back() is operator[](size_ - 1); on an empty vector the index wraps to SIZE_MAX, which the
        bounds check rejects. */
    function Back(): (r: Result<T>)
      reads this, data
      requires Valid()
      ensures r.Ok? <==> Elements() != []
      ensures r.Ok? ==> r.value == Elements()[|Elements()| - 1]
      ensures r.Err? ==> r.error == OutOfRange
    {
      Get(LastIndex(size))
    }

    /** reserve(n): when n exceeds the capacity, moves the live elements into a new block of
        exactly n slots; otherwise does nothing. */
    method Reserve(n: nat)
      requires Valid()
      modifies this
      ensures Valid()
      ensures Elements() == old(Elements())
      ensures capacity == if n > old(capacity) then n else old(capacity)
      ensures if n > old(capacity) then fresh(data) else data == old(data)
      ensures allocator == old(allocator) && growth == old(growth)
      ensures released == old(released) + (if data == old(data) then {} else Dropped(old(data)))
    {
      if n > capacity {
        var block := new T[n];
        var i := 0;
        while i < size
          invariant 0 <= i <= size
          invariant block[..i] == Elements()[..i]
          modifies block
        {
          block[i] := data[i];
          i := i + 1;
        }
        if data != null {
          released := released + {data};
        }
        data := block;
        capacity := n;
      }
    }

    /** resize(n): shrinking destroys the tail (and releases the block when n is 0); growing
        reserves n and value-initializes the new slots. `init` is the value-initialized T{}. */
    method Resize(n: nat, init: T)
      requires Valid()
      modifies this, data
      ensures Valid() && size == n && capacity >= size
      ensures Elements() == if n <= old(size) then old(Elements())[..n]
                            else old(Elements()) + seq(n - old(size), _ => init)
      ensures capacity == if 0 == n < old(size) then 0
                          else if n > old(capacity) then n else old(capacity)
      ensures 0 == n < old(size) ==> data == null
      ensures data == null || data == old(data) || fresh(data)
      ensures !(0 == n < old(size)) && n <= old(capacity) ==> data == old(data)
      ensures n > old(capacity) ==> fresh(data)
      ensures allocator == old(allocator) && growth == old(growth)
      ensures released == old(released) + (if data == old(data) then {} else Dropped(old(data)))
    {
      if n < size {
        size := n;
        if n == 0 {
          released := released + {data};
          data := null;
          capacity := 0;
        }
      } else if n > size {
        Reserve(n);
        ghost var kept := Elements();
        var i := size;
        while i < n
          invariant size <= i <= n <= capacity
          invariant data != null && data.Length == capacity
          invariant data[..size] == kept
          invariant forall k :: size <= k < i ==> data[k] == init
          modifies data
        {
          data[i] := init;
          i := i + 1;
        }
        size := n;
        assert Elements() == kept + seq(n - old(size), _ => init);
      }
    }

    /** clear(): destroys every live element; the block and the capacity stay. */
    method Clear()
      requires Valid()
      modifies this
      ensures Valid() && Elements() == []
      ensures capacity == old(capacity) && data == old(data)
      ensures allocator == old(allocator) && growth == old(growth)
      ensures released == old(released)
    {
      size := 0;
    }

    /** shrink_to_fit(): releases the block when empty; otherwise moves the elements into a block
        of exactly size slots unless the capacity already equals the size. */
    method ShrinkToFit()
      requires Valid()
      modifies this
      ensures Valid() && Elements() == old(Elements())
      ensures capacity == size
      ensures size == 0 ==> data == null
      ensures old(size) == old(capacity) ==> data == old(data)
      ensures data == null || data == old(data) || fresh(data)
      ensures allocator == old(allocator) && growth == old(growth)
      ensures released == old(released) + (if data == old(data) then {} else Dropped(old(data)))
    {
      if size == 0 {
        if data != null {
          released := released + {data};
        }
        data := null;
        capacity := 0;
      } else if size != capacity {
        var block := new T[size];
        var i := 0;
        while i < size
          invariant 0 <= i <= size
          invariant block[..i] == Elements()[..i]
          modifies block
        {
          block[i] := data[i];
          i := i + 1;
        }
        released := released + {data};
        data := block;
        capacity := size;
      }
    }

    /** emplace_back(value) (push_back forwards to it): on a full vector first grows the capacity
        to capacity + max(1, growth(size, capacity)); an empty growth policy throws
        bad_function_call and leaves the vector as it was. Then constructs the value at index
        size, increments size and returns an Iterator at the new element. */
    method EmplaceBack(value: T) returns (r: Result<Iter<Vector<T>>>)
      requires Valid()
      modifies this, data
      ensures Valid()
      ensures r.Ok? <==> old(size) < old(capacity) || growth.Some?
      ensures r.Err? ==> r.error == BadFunctionCall
      ensures r.Err? ==> Elements() == old(Elements()) && capacity == old(capacity) && data == old(data)
      ensures r.Ok? ==> Elements() == old(Elements()) + [value]
      ensures r.Ok? ==> r.value == Iter(Mutable, Some(this), old(size))
      ensures r.Ok? ==> capacity == if old(size) == old(capacity)
                                   then GrowthPolicy.GrownCapacity(growth.value, old(size), old(capacity))
                                   else old(capacity)
      ensures data == old(data) || fresh(data)
      ensures old(size) < old(capacity) ==> data == old(data) && capacity == old(capacity)
      ensures allocator == old(allocator) && growth == old(growth)
      ensures released == old(released) + (if data == old(data) then {} else Dropped(old(data)))
    {
      if size == capacity {
        match growth
        case None =>
          return Err(BadFunctionCall);
        case Some(policy) =>
          Reserve(GrowthPolicy.GrownCapacity(policy, size, capacity));
      }
      ghost var before := Elements();
      data[size] := value;
      r := Ok(Iter(Mutable, Some(this), size));
      size := size + 1;
      assert Elements() == before + [value];
    }

    /** pop_back(): destroys the last element; does nothing on an empty vector. */
    method PopBack()
      requires Valid()
      modifies this
      ensures Valid()
      ensures Elements() == if old(size) == 0 then old(Elements()) else old(Elements())[..old(size) - 1]
      ensures capacity == old(capacity) && data == old(data)
      ensures allocator == old(allocator) && growth == old(growth)
      ensures released == old(released)
    {
      if size > 0 {
        size := size - 1;
      }
    }

    /** begin(): an Iterator at index 0. */
    function Begin(): (r: Iter<Vector<T>>)
      ensures r.Associated() && r.container.value == this && r.constness == Mutable && r.index == 0
    {
      Iter(Mutable, Some(this), 0)
    }

    /** end(): an Iterator at index size. */
    function End(): (r: Iter<Vector<T>>)
      reads this
      ensures r.Associated() && r.container.value == this && r.constness == Mutable && r.index == size
    {
      Iter(Mutable, Some(this), size)
    }

    /** begin() const and cbegin(): a ConstIterator at index 0. */
    function CBegin(): (r: Iter<Vector<T>>)
      ensures r == Begin().ToConst()
    {
      Iter(ReadOnly, Some(this), 0)
    }

    /** end() const and cend(): a ConstIterator at index size. */
    function CEnd(): (r: Iter<Vector<T>>)
      reads this
      ensures r == End().ToConst()
    {
      Iter(ReadOnly, Some(this), size)
    }

    /** operator=(const Vector&): unless self-assigned, takes the other allocator when
        propagate_on_container_copy_assignment is set (first releasing the block when the two
        allocators differ), clears, reserves other's capacity and copies other's elements. */
    method CopyAssign(other: Vector<T>)
      requires Valid() && other.Valid() && traits == other.traits
      requires OwnStorageApart(this, other)
      modifies this, data
      ensures Valid() && other.Valid()
      ensures Elements() == old(other.Elements()) && other.Elements() == old(other.Elements())
      ensures this == other ==> capacity == old(capacity) && data == old(data) && allocator == old(allocator)
      ensures this != other ==> allocator == if traits.propagateOnCopyAssignment then old(other.allocator) else old(allocator)
      ensures this != other ==>
        capacity == GrowthPolicy.Max(CapacityKeptByCopyAssign(old(capacity), old(allocator), old(other.allocator)), old(other.capacity))
      ensures growth == old(growth)
      ensures data == null || data == old(data) || fresh(data)
      ensures (this != other && !(traits.propagateOnCopyAssignment && old(allocator) != old(other.allocator)) &&
               old(other.capacity) <= old(capacity)) ==> data == old(data)
      ensures this != other && capacity > old(capacity) ==> fresh(data)
      ensures OwnStorageApart(this, other)
      ensures released == old(released) + (if data == old(data) then {} else Dropped(old(data)))
      ensures other.released == old(other.released)
    {
      if this != other {
        if traits.propagateOnCopyAssignment {
          if allocator != other.allocator {
            Clear();
            ShrinkToFit();
          }
          allocator := other.allocator;
        }
        Clear();
        Reserve(other.capacity);
        ConstructFrom(other);
      }
    }

    /** The element loop of copy and move assignment: constructs other's live elements into this
        vector's (empty) block, then takes other's size. */
    method ConstructFrom(other: Vector<T>)
      requires Valid() && other.Valid() && this != other && OwnStorageApart(this, other)
      requires size == 0 && other.size <= capacity
      modifies this, data
      ensures Valid() && Elements() == other.Elements()
      ensures capacity == old(capacity) && data == old(data)
      ensures allocator == old(allocator) && growth == old(growth)
      ensures released == old(released)
    {
      var i := 0;
      while i < other.size
        invariant 0 <= i <= other.size
        invariant data != null ==> data[..i] == other.Elements()[..i]
        modifies data
      {
        data[i] := other.data[i];
        i := i + 1;
      }
      size := other.size;
    }

    /** The capacity copy assignment starts its reserve from: 0 when it released the block to
        switch allocators, the old capacity otherwise. */
    function CapacityKeptByCopyAssign(capacity: nat, mine: Allocator, theirs: Allocator): (r: nat)
      ensures r == capacity || r == 0
      ensures traits.propagateOnCopyAssignment && mine != theirs ==> r == 0
      ensures !(traits.propagateOnCopyAssignment && mine != theirs) ==> r == capacity
    {
      if traits.propagateOnCopyAssignment && mine != theirs then 0 else capacity
    }

    /** operator=(Vector&&) as written: unless self-assigned, releases its own block and then
        either takes other's block (propagating allocator, or equal allocators) or, keeping its own
        unequal allocator, reserves other.size slots and moves the elements over. The source always
        ends with size 0, capacity 0 and no block. In the element-wise branch nothing deallocates
        the source's old block: afterwards no vector holds it and neither released it (a leak). */
    method MoveAssign(other: Vector<T>)
      requires Valid() && other.Valid() && traits == other.traits
      requires OwnStorageApart(this, other)
      modifies this, other
      ensures Valid() && other.Valid()
      ensures this == other ==> Elements() == old(Elements()) && capacity == old(capacity) && data == old(data)
      ensures this == other ==> allocator == old(allocator)
      ensures this != other ==> Elements() == old(other.Elements())
      ensures this != other ==> other.size == 0 && other.capacity == 0 && other.data == null
      ensures this != other ==> other.allocator == old(other.allocator) && other.growth == old(other.growth)
      ensures this != other ==> allocator == if traits.propagateOnMoveAssignment then old(other.allocator) else old(allocator)
      ensures this != other && (traits.propagateOnMoveAssignment || old(allocator) == old(other.allocator)) ==>
        data == old(other.data) && capacity == old(other.capacity)
      ensures this != other && !traits.propagateOnMoveAssignment && old(allocator) != old(other.allocator) ==>
        capacity == old(other.size) && (data == null || fresh(data))
      ensures growth == old(growth)
      ensures released == if this == other then old(released) else old(released) + Dropped(old(data))
      ensures this != other ==> old(data) != null ==> old(data) in released
      ensures this != other ==> released - old(released) <= Dropped(old(data))
      ensures this != other ==> other.released == old(other.released)
      ensures this != other && !traits.propagateOnMoveAssignment && old(allocator) != old(other.allocator) ==>
        old(other.data) != null ==>
          && old(other.data) != data && old(other.data) != other.data
          && old(other.data) !in released - old(released)
          && old(other.data) !in other.released - old(other.released)
    {
      if this != other {
        if traits.propagateOnMoveAssignment {
          TakeStorage(other, true);
        } else if allocator != other.allocator {
          MoveElementsFrom(other);
        } else {
          TakeStorage(other, false);
        }
        other.data := null;
        other.size := 0;
        other.capacity := 0;
      }
    }

    /** The two stealing branches of move assignment: clear and shrink_to_fit (releasing its own
        block), then take other's block, size and capacity, and other's allocator when
        `takeAllocator`. The source is left for the caller to reset. */
    method TakeStorage(other: Vector<T>, takeAllocator: bool)
      requires Valid() && other.Valid() && this != other
      modifies this
      ensures Valid() && Elements() == other.Elements()
      ensures data == other.data && capacity == other.capacity
      ensures allocator == if takeAllocator then other.allocator else old(allocator)
      ensures growth == old(growth)
      ensures released == old(released) + Dropped(old(data))
    {
      Clear();
      ShrinkToFit();
      if takeAllocator {
        allocator := other.allocator;
      }
      data := other.data;
      size := other.size;
      capacity := other.capacity;
    }

    /** The element-wise branch of move assignment: clear and shrink_to_fit (releasing its own
        block), reserve exactly other.size slots and move other's elements into them. */
    method MoveElementsFrom(other: Vector<T>)
      requires Valid() && other.Valid() && this != other
      modifies this
      ensures Valid() && Elements() == other.Elements()
      ensures capacity == other.size && (data == null || fresh(data))
      ensures allocator == old(allocator) && growth == old(growth)
      ensures released == old(released) + Dropped(old(data))
    {
      Clear();
      ShrinkToFit();
      Reserve(other.size);
      ConstructFrom(other);
    }

    /** Move assignment with the element-wise branch also deallocating the source's block through
        the source's allocator once its elements are moved out: every block the two vectors held
        before is afterwards held by the target or released. */
    method MoveAssignReleasing(other: Vector<T>)
      requires Valid() && other.Valid() && traits == other.traits
      requires OwnStorageApart(this, other)
      modifies this, other
      ensures Valid() && other.Valid()
      ensures this == other ==> Elements() == old(Elements()) && capacity == old(capacity) && data == old(data)
      ensures this == other ==> allocator == old(allocator)
      ensures this != other ==> Elements() == old(other.Elements())
      ensures this != other ==> other.size == 0 && other.capacity == 0 && other.data == null
      ensures this != other ==> other.allocator == old(other.allocator) && other.growth == old(other.growth)
      ensures this != other ==> allocator == if traits.propagateOnMoveAssignment then old(other.allocator) else old(allocator)
      ensures this != other && (traits.propagateOnMoveAssignment || old(allocator) == old(other.allocator)) ==>
        data == old(other.data) && capacity == old(other.capacity)
      ensures this != other && !traits.propagateOnMoveAssignment && old(allocator) != old(other.allocator) ==>
        capacity == old(other.size) && (data == null || fresh(data))
      ensures growth == old(growth)
      ensures released == if this == other then old(released) else old(released) + Dropped(old(data))
      ensures this != other && (traits.propagateOnMoveAssignment || old(allocator) == old(other.allocator)) ==>
        other.released == old(other.released)
      ensures this != other ==> old(data) != null ==> old(data) in released
      ensures this != other ==> old(other.data) != null ==>
        old(other.data) == data || old(other.data) in other.released
      ensures this != other && !traits.propagateOnMoveAssignment && old(allocator) != old(other.allocator) ==>
        other.released == old(other.released) + Dropped(old(other.data))
    {
      var elementWise := this != other && !traits.propagateOnMoveAssignment && allocator != other.allocator;
      ghost var source := other.data;
      MoveAssign(other);
      if elementWise && source != null {
        other.released := other.released + {source};
      }
    }
  }

  /** The block a release hands back: nothing for a null pointer. */
  ghost function Dropped<T>(block: array?<T>): (r: set<array<T>>)
    ensures block == null <==> r == {}
    ensures block != null ==> block in r && |r| == 1
  {
    if block == null then {} else {block}
  }

  /** Two distinct vectors never share a block: each block has exactly one owner. */
  ghost predicate OwnStorageApart<T(0)>(a: Vector<T>, b: Vector<T>)
    reads a, b
  {
    a == b || a.data == null || a.data != b.data
  }

  /** swap(lhs, rhs): exchanges size, capacity and block, and the allocators only when
      propagate_on_container_swap is set. Growth policies stay where they are. */
  method Swap<T(0)>(lhs: Vector<T>, rhs: Vector<T>)
    requires lhs.Valid() && rhs.Valid() && lhs.traits == rhs.traits
    modifies lhs, rhs
    ensures lhs.Valid() && rhs.Valid()
    ensures lhs.Elements() == old(rhs.Elements()) && rhs.Elements() == old(lhs.Elements())
    ensures lhs.capacity == old(rhs.capacity) && rhs.capacity == old(lhs.capacity)
    ensures lhs.data == old(rhs.data) && rhs.data == old(lhs.data)
    ensures lhs.allocator == if lhs.traits.propagateOnSwap then old(rhs.allocator) else old(lhs.allocator)
    ensures rhs.allocator == if lhs.traits.propagateOnSwap then old(lhs.allocator) else old(rhs.allocator)
    ensures lhs.growth == old(lhs.growth) && rhs.growth == old(rhs.growth)
    ensures lhs.released == old(lhs.released) && rhs.released == old(rhs.released)
  {
    var size := lhs.size;
    lhs.size := rhs.size;
    rhs.size := size;
    var capacity := lhs.capacity;
    lhs.capacity := rhs.capacity;
    rhs.capacity := capacity;
    var data := lhs.data;
    lhs.data := rhs.data;
    rhs.data := data;
    if lhs.traits.propagateOnSwap {
      var allocator := lhs.allocator;
      lhs.allocator := rhs.allocator;
      rhs.allocator := allocator;
    }
  }

  /** Iterator::operator* and operator-> (and the ConstIterator ones): unassociated fails,
      otherwise the container's bounds-checked at(index). */
  function Deref<T(0)>(it: Iter<Vector<T>>): (r: Result<T>)
    reads if it.container.Some? then {it.container.value, it.container.value.data} else {}
    requires it.container.Some? ==> it.container.value.Valid()
    ensures !it.Associated() ==> r == Err(UnassociatedIterator)
    ensures it.Associated() ==> r == it.container.value.Get(it.index)
    ensures it.Associated() ==> r.Ok? == (it.index < |it.container.value.Elements()|)
    ensures it.Associated() && r.Err? ==> r.error == OutOfRange
    ensures r.Ok? ==> r.value == it.container.value.Elements()[it.index]
  {
    match it.container
    case None => Err(UnassociatedIterator)
    case Some(owner) => owner.Get(it.index)
  }

  /** Iterator::operator[](index) as written: unassociated fails, otherwise the container's
      operator[](index). The iterator's own position is not added. */
  function Subscript<T(0)>(it: Iter<Vector<T>>, index: nat): (r: Result<T>)
    reads if it.container.Some? then {it.container.value, it.container.value.data} else {}
    requires it.container.Some? ==> it.container.value.Valid()
    ensures !it.Associated() ==> r == Err(UnassociatedIterator)
    ensures it.Associated() ==> r == it.container.value.Get(index)
  {
    match it.container
    case None => Err(UnassociatedIterator)
    case Some(owner) => owner.Get(index)
  }

  /** The random-access meaning of it[n]: the element n positions after the iterator. */
  function SubscriptFromPosition<T(0)>(it: Iter<Vector<T>>, offset: nat): (r: Result<T>)
    reads if it.container.Some? then {it.container.value, it.container.value.data} else {}
    requires it.container.Some? ==> it.container.value.Valid()
    ensures !it.Associated() ==> r == Err(UnassociatedIterator)
    ensures it.Associated() ==> r == it.container.value.Get(it.index + offset)
  {
    match it.Plus(offset)
    case Err(e) => Err(e)
    case Ok(moved) => Deref(moved)
  }

  /** *begin() reads the front element. */
  lemma BeginDerefIsFront<T(0)>(v: Vector<T>)
    requires v.Valid()
    ensures Deref(v.Begin()) == v.Front() && Deref(v.CBegin()) == v.Front()
  {
  }

  /** end() - begin() is the size, and dereferencing end() fails with out_of_range. */
  lemma EndMinusBeginIsSize<T(0)>(v: Vector<T>)
    requires v.Valid()
    ensures v.End().Difference(v.Begin()) == Ok(|v.Elements()|)
    ensures v.CEnd().Difference(v.CBegin()) == Ok(|v.Elements()|)
    ensures Deref(v.End()) == Err(OutOfRange)
  {
  }

  /** *(begin() + k) is the element at index k, with the same bounds check as at(k). */
  lemma AdvancedBeginReads<T(0)>(v: Vector<T>, k: nat)
    requires v.Valid()
    ensures v.Begin().Plus(k).Ok? && Deref(v.Begin().Plus(k).value) == v.Get(k)
  {
  }

  /** Iterators of two different vectors are unrelated: -, < and > fail. */
  lemma DistinctVectorsUnrelated<T(0)>(v: Vector<T>, w: Vector<T>, i: nat, j: nat)
    requires v != w
    ensures Iter(Mutable, Some(v), i).Difference(Iter(Mutable, Some(w), j)) == Err(UnrelatedIterators)
    ensures Iter(Mutable, Some(v), i).Less(Iter(Mutable, Some(w), j)) == Err(UnrelatedIterators)
    ensures Iter(Mutable, Some(v), i).Greater(Iter(Mutable, Some(w), j)) == Err(UnrelatedIterators)
  {
  }

  /** As written, it[n] is the same for every iterator of one vector: begin()[n]. */
  lemma SubscriptIgnoresPosition<T(0)>(it: Iter<Vector<T>>, n: nat)
    requires it.Associated() && it.container.value.Valid()
    ensures Subscript(it, n) == Subscript(it.container.value.Begin(), n)
    ensures Subscript(it, n) == SubscriptFromPosition(it.container.value.Begin(), n)
  {
  }

  /** The slots the copy constructor's element loop (the index i of `Vector.CopyElementsFrom`)
      has constructed when copying element `failed` throws: 0, 1, ..., failed - 1, in order. */
  function ConstructedSlots(failed: nat): (r: seq<nat>)
    ensures |r| == failed
    ensures forall k :: 0 <= k < failed ==> r[k] == k
  {
    seq(failed, k => k)
  }

  /** The cleanup loop of the copy constructor's catch block as written: when copying element
      `failed` throws, slots ConstructedSlots(failed) hold constructed copies, and the loop runs
      `failed` times destroying data_ + i, which is slot `failed` every time. Returns the slots
      destroyed in order: none of the constructed ones is among them. */
  method CopyRollbackAsWritten(failed: nat) returns (destroyed: seq<nat>)
    ensures |destroyed| == failed
    ensures forall k :: 0 <= k < |destroyed| ==> destroyed[k] == failed
    ensures failed > 0 ==> failed in destroyed && 0 !in destroyed
    ensures forall k :: 0 <= k < failed ==> ConstructedSlots(failed)[k] !in destroyed
    ensures failed > 0 ==> destroyed != ConstructedSlots(failed)
  {
    destroyed := [];
    var j := 0;
    while j < failed
      invariant 0 <= j <= failed && |destroyed| == j
      invariant forall k :: 0 <= k < j ==> destroyed[k] == failed
    {
      destroyed := destroyed + [failed];
      j := j + 1;
    }
    if failed > 0 {
      assert destroyed[0] == failed;
    }
  }

  /** The cleanup loop destroying data_ + j: every constructed slot exactly once, in the order
      they were constructed, and nothing else. */
  method CopyRollback(failed: nat) returns (destroyed: seq<nat>)
    ensures destroyed == ConstructedSlots(failed)
    ensures |destroyed| == failed
    ensures forall k :: 0 <= k < |destroyed| ==> destroyed[k] == k
    ensures forall slot: nat :: slot in destroyed <==> slot < failed
  {
    destroyed := [];
    var j := 0;
    while j < failed
      invariant 0 <= j <= failed && |destroyed| == j
      invariant forall k :: 0 <= k < j ==> destroyed[k] == k
      invariant forall slot: nat :: slot in destroyed <==> slot < j
    {
      destroyed := destroyed + [j];
      j := j + 1;
    }
  }
}
